=== FILE: README.md ===
# Email address validation pipeline, modelled in Dafny

This project models `validate_email_address` in `email_validation.py`: the
part of the email checker that routes one address through three checks in turn.

1. A syntax check (`validate_email_syntax`, which wraps `email_validator`).
2. An MX lookup for the address's domain (`check_mx_record`).
3. A live SMTP `RCPT TO` probe (`verify_email_deliverability`).

The outcome is appended as one four-field row,
`[email, syntax_result, mx_result, deliverability_result]`, to either the
deliverable list or the non-deliverable list.

Every step returns a string. The router decides how to continue by testing
that string for a fixed marker: `"Invalid email syntax"`,
`"No MX record found"` or `"is deliverable"`. The model keeps this
behaviour exactly as written. It proves when each message carries its
marker, including the cases where the marker arrives through echoed text
(the domain, an exception message, the server's reply). It then proves that
the substring-driven routing ends in the same state as a reference state
machine over the typed answers of the three checks.

Modules:

- `Wrappers` (`wrappers.dfy`): `Option` and `Result`.
- `Strings` (`strings.dfy`): Python's `sub in s` and `str.split(sep)` for a one-character `sep`, each
  with an independent characterisation, and `StartsWith`, the opening predicate
  that the syntax, MX and probe message contracts use. Also two
  certificates (`NoMatchStartsIn`, `NoMatchContinuesInto`) that show a piece
  of fixed message text cannot take part in an occurrence of a marker.
- `Messages` (`messages.dfy`): the domain extraction `email.split('@')[1]`
  and the message formatting of the three checks. The outside answers are
  typed parameters: `SyntaxVerdict`, `MxLookup` and `ProbeOutcome`.
- `Pipeline` (`pipeline.dfy`): the routing, the two result lists, the
  record invariant and the short-circuit properties.

The three checks consult things outside the model: the address grammar, DNS
and an SMTP server. Their answers come from a `Checks` value holding three
total functions. "Not invoked" is stated in two ways:

- `Outcome.calls` lists each check the routing invoked, with its argument.
- Independence lemmas show that the outcome is the same for any two
  `Checks` that agree on what was actually consulted.

## Model

| member | source | states |
|---|---|---|
| Strings.ContainsIffOccurs | email_validation.py:100-117 | The substring test used for routing succeeds exactly when the marker occurs at some index of the message. |
| Strings.Split | email_validation.py:106 | `split('@')` always produces at least one field. |
| Strings.JoinSplit | email_validation.py:106 | Joining the fields of `split('@')` back with '@' gives the original address, so no characters are lost or added. |
| Strings.SplitJoin | email_validation.py:106 | Splitting '@'-free fields that were joined with '@' gives back exactly those fields. |
| Strings.SplitFieldsFree | email_validation.py:106 | No field produced by `split('@')` contains '@'. |
| Strings.SplitHasSecondField | email_validation.py:106 | Index 1 of `split('@')` exists exactly when the address contains '@'. |
| Messages.DomainOf | email_validation.py:106 | `email.split('@')[1]` yields a domain exactly when the address has an '@' (otherwise Python raises `IndexError`), and that domain never contains '@'. |
| Messages.DomainIsSecondField | email_validation.py:42 | The domain is the text between the first '@' and the next '@' or the end of the address; what comes before it is an '@'-free local part. |
| Messages.ValidateEmailSyntax | email_validation.py:18-23 | A normalised address is returned unchanged. A rejection message opens with "Invalid email syntax: " and quotes the library's reason. The result reads as a rejection exactly when the library raised `EmailNotValidError`, or when the normalised address itself contains "Invalid email syntax". |
| Messages.CheckMxRecord | email_validation.py:28-36 | The message opens with the fixed text of its kind: "MX record found: ", "No MX record found for domain {domain}: " or "An error occurred while checking MX record for domain {domain}: ". Both failure messages name the domain. The message quotes the exchange name of a found record, or the exception text of a failure. It reads as "no MX" in three cases: the lookup raised NoAnswer, NXDOMAIN or Timeout; a found exchange name contains the marker; or a generic failure's domain or exception text contains it. |
| Messages.MxOpeningIdentifiesKind | email_validation.py:32-36 | Two equal MX messages come from the same kind of lookup (record found, one of the three "missing" exceptions, or any other exception), whatever the domains. |
| Messages.GenericMxErrorMarker | email_validation.py:35-36 | The fixed text of the generic MX error message has no "No MX record found" of its own. The message carries the marker exactly when the domain or the exception text does. |
| Messages.VerifyEmailDeliverability | email_validation.py:41-53 | The probe raises exactly when the address has no '@', because the split comes before the `try`. Otherwise its message reports the SMTP session run at the address's domain, asking about that same address. |
| Messages.DeliverabilityReport | email_validation.py:55-66 | A probe message contains "is deliverable" in two cases: the dialogue ended with RCPT code 250, or the address, the server's reply or the exception text contains the marker. No fixed message text supplies the marker on its own. |
| Messages.RefusedRecipientReport | email_validation.py:57-58 | A dialogue that ended with a non-250 RCPT reply gives a message that says "not deliverable" and quotes the server's reply. That message reads as deliverable only if the address or the reply contains "is deliverable". |
| Messages.DeliverabilityLeadInert | email_validation.py:63-66 | The two "... checking deliverability for {email}: {e}" messages contain "is deliverable" only through the address or the exception text. |
| Messages.ReportOpeningIdentifiesKind | email_validation.py:55-66 | Each way the probe can end opens its message with its own fixed text: RCPT reply, connect error, server disconnect, other SMTP error or any other exception. No message opens with another kind's text. |
| Messages.SameReportSameKind | email_validation.py:59-66 | Two equal probe messages report the same kind of ending. |
| Pipeline.ValidateEmailAddress | email_validation.py:96-122 | The call raises exactly when the syntax result passes and the address has no '@'; only the syntax check has run then. Otherwise exactly one row is appended to exactly one list, and the earlier rows of both lists are kept. The row holds the address and its syntax result. A filled MX field holds the MX message for the address's domain. A filled deliverability field holds the probe message for the address as given. The row satisfies the record invariant. The checks invoked are exactly those whose fields are filled, in order. The row goes to the deliverable list exactly when its deliverability field contains "is deliverable". |
| Pipeline.RoutingKeepsRowsInTheirLists | email_validation.py:100-122 | If every row so far is well formed and sits in the list its fields select, the same holds after one more address. |
| Pipeline.InvalidSyntaxShortCircuits | email_validation.py:100-104 | A syntax result that reads as a rejection gives the row `[email, syntax_result, None, None]`. That row goes to the non-deliverable list, and only the syntax check is invoked. |
| Pipeline.InvalidSyntaxIgnoresLaterChecks | email_validation.py:100-104 | Once the syntax result reads as a rejection, the resolver's and the SMTP session's answers cannot change the outcome. |
| Pipeline.NoMxShortCircuits | email_validation.py:110-113 | An MX result that reads as "no MX" gives the row `[email, syntax_result, mx_result, None]`. That row goes to the non-deliverable list, and the probe is not invoked. |
| Pipeline.NoMxIgnoresProbe | email_validation.py:110-113 | Once the MX result reads as "no MX", the SMTP session's answer cannot change the outcome. |
| Pipeline.GenericMxFailureReachesProbe | email_validation.py:110-115 | A generic resolver failure does not stop the pipeline when neither the domain nor the exception text contains "No MX record found": the probe runs and its message is recorded. |
| Pipeline.MarkerInMxErrorTextStopsProbe | email_validation.py:110-113 | A generic resolver failure whose domain or exception text contains "No MX record found" is routed as "no MX", and the probe is not invoked. |
| Pipeline.ProbeUsesOriginalAddress | email_validation.py:106-122 | Suppose the syntax result passes, the address has an '@' and the MX result does not read as "no MX". Then all three checks run, and the probe is invoked with the address as given, not the normalised syntax result. The session is asked about that address at its domain. The row is `[email, syntax_result, mx_result, deliverability_result]`, holding both messages, and it goes to the deliverable list exactly when the probe message contains "is deliverable". |
| Pipeline.AcceptedRecipientIsDeliverable | email_validation.py:117-119 | Once the first two steps let the probe run, a dialogue that ended with RCPT code 250 records "Email {email} is deliverable.", and the row goes to the deliverable list. |
| Pipeline.RoutingFollowsCheckOutcomes | email_validation.py:96-122 | The substring-driven routing ends in exactly the state given by the typed check answers: invalid syntax, `IndexError`, no MX, deliverable, or not deliverable. Each step stops the pipeline when it genuinely fails, and also when echoed text carries its marker. |

## Left out

- The address grammar of `email_validator.validate_email` is not modelled. Its verdict is an input (`SyntaxVerdict`), because it is an external library.
- Messages.ValidateEmailSyntax: the verdict assumes that `validate_email` either returns or raises `EmailNotValidError`. Line 22 catches only that exception, so any other exception would propagate uncaught out of `validate_email_address` before a row is appended; the model has no such outcome.
- DNS resolution (`dns.resolver.resolve`) and the choice of `records[0]` are not modelled. The lookup result is an input (`MxLookup`), because it is network I/O. The same applies to the second lookup inside the probe.
- The SMTP dialogue is not modelled: connecting to port 25 with a 30-second timeout, EHLO, STARTTLS, EHLO, `MAIL FROM test@example.com`, `RCPT TO`, debug output and closing the session. How the dialogue ended is an input (`ProbeOutcome`), because it is network I/O.
- Python's rendering of values into f-strings is not modelled. The texts of exceptions, the exchange name and the RCPT reply are taken as already rendered. For example, the bytes reply appears in the message in Python's `b'...'` form.
- `RcptReply` stands for a dialogue that got its RCPT reply and then closed cleanly. In the source, the `return` at line 56 or 58 runs inside `with smtplib.SMTP(...)`, and leaving that block sends QUIT. A QUIT reply other than 221 raises `SMTPResponseException`, which replaces the pending return and is caught at line 63. Such a dialogue is expressed as `SmtpError` with the exception's text, not as `RcptReply`. What QUIT answers is an input like the rest of the dialogue, because it is network I/O.
- Exception dispatch in `verify_email_deliverability` is modelled by outcome kind. Each `ProbeOutcome` constructor stands for the exceptions that the first matching `except` clause catches. The Python class hierarchy is not modelled.
- `create_database` and the sqlite reads are left out as database I/O.
- `store_results_in_csv` (the pandas/openpyxl export and column sizing) is left out as file I/O.
- The `__main__` batch loop and its terminal printing are left out as I/O. `Pipeline.RoutingKeepsRowsInTheirLists` states what repeated calls preserve.
- The module-level `create_database()` call at import time is left out as database I/O.

## Notes on the source

- Each step's outcome is decided by searching the message the step returned for a fixed marker. Text echoed from outside can therefore redirect the routing (`Pipeline.RoutingFollowsCheckOutcomes`).
- A DNS failure inside `verify_email_deliverability` is caught by its last, catch-all `except` clause and reported as "Error checking deliverability for {email}: {e}". It does not stop the pipeline in any other way.
- `email.split('@')[1]` at line 106 raises `IndexError` when the address has no '@'. The syntax library normally rules that out, but the code does not check it. The model returns it as the `Raised` outcome, with neither list changed.

=== FILE: messages.dfy ===
/** The three checks of email_validation.py as text producers. Each check
    consults something this model cannot see (the `email_validator` grammar,
    a DNS resolver, an SMTP session); that outcome is a parameter here, and
    the functions turn it into the exact message the check returns. The
    lemmas say when each message carries the marker that the routing in
    `Pipeline` searches for. */
module Messages {
  import opened Wrappers
  import opened Strings

  /** The substrings `validate_email_address` tests for, in routing order. */
  const InvalidSyntaxMarker: string := "Invalid email syntax"
  const NoMxMarker: string := "No MX record found"
  const DeliverableMarker: string := "is deliverable"

  /** The only exception the model lets escape the checks: indexing the
      result of `email.split('@')` at 1 when the address has no '@'. */
  datatype PyError = IndexError

  /* ----------------------------------------------------------------------
     Domain extraction
     ---------------------------------------------------------------------- */

  /** `email.split('@')[1]`: the text between the first '@' and the next
      one (or the end); `None` where Python raises `IndexError`. */
  function DomainOf(email: string): (domain: Option<string>)
    ensures domain.Some? <==> '@' in email
    ensures domain.Some? ==> '@' !in domain.value
  {
    SplitHasSecondField(email, '@');
    SplitFieldsFree(email, '@');
    var fields := Split(email, '@');
    if |fields| >= 2 then Some(fields[1]) else None
  }

  /** Where the domain sits in the address: an '@'-free local part, one '@',
      the domain, and then either the end of the address or another '@'. */
  lemma DomainIsSecondField(email: string)
    requires '@' in email
    ensures var local := Split(email, '@')[0];
            var domain := DomainOf(email).value;
            var end := |local| + 1 + |domain|;
            && '@' !in local
            && end <= |email|
            && email[..|local|] == local
            && email[|local|] == '@'
            && email[|local| + 1..end] == domain
            && (end == |email| || email[end] == '@')
  {
    var fields := Split(email, '@');
    SplitHasSecondField(email, '@');
    SplitFieldsFree(email, '@');
    JoinSplit(email, '@');
    var local, domain := fields[0], fields[1];
    assert email == local + ['@'] + Join(fields[1..], '@');
    var tail := Join(fields[1..], '@');
    if |fields| == 2 {
      assert tail == domain;
    } else {
      assert fields[1..][1..] == fields[2..];
      assert tail == domain + ['@'] + Join(fields[2..], '@');
    }
    assert email == local + ['@'] + tail;
  }

  /* ----------------------------------------------------------------------
     Step 1: syntax
     ---------------------------------------------------------------------- */

  /** What `email_validator.validate_email` decides about an address: its
      normalised form, or the text of the `EmailNotValidError` it raises. */
  datatype SyntaxVerdict = Normalized(address: string) | NotValid(reason: string)

  /** `validate_email_syntax`: the normalised address, or a rejection message
      quoting the library's reason. The routing reads the result as a
      rejection exactly when the library rejected the address, or when the
      normalised address itself happens to contain the marker. */
  function ValidateEmailSyntax(verdict: SyntaxVerdict): (result: string)
    ensures verdict.Normalized? ==> result == verdict.address
    ensures verdict.NotValid? ==> StartsWith(result, "Invalid email syntax: ")
    ensures verdict.NotValid? ==> Contains(result, verdict.reason)
    ensures Contains(result, InvalidSyntaxMarker)
        <==> verdict.NotValid? || Contains(verdict.address, InvalidSyntaxMarker)
  {
    match verdict
    case Normalized(address) => address
    case NotValid(reason) =>
      ContainsSuffix("Invalid email syntax: ", reason);
      assert ("Invalid email syntax: " + reason)[..22] == "Invalid email syntax: ";
      "Invalid email syntax: " + reason
  }

  /* ----------------------------------------------------------------------
     Step 2: MX record
     ---------------------------------------------------------------------- */

  /** The three resolver exceptions `check_mx_record` catches together. */
  datatype MissingKind = NoAnswer | NxDomain | Timeout

  /** What `dns.resolver.resolve(domain, 'MX')` did: the exchange of the
      first record, one of the three "missing" exceptions, or any other
      exception; each failure carries the text of the exception. */
  datatype MxLookup =
    | MxFound(exchange: string)
    | MxMissing(kind: MissingKind, reason: string)
    | MxError(reason: string)

  /** `check_mx_record`: the message opens with the fixed text of its kind
      (naming the domain for both failures), quotes the exchange name or the
      exception text, and carries the no-MX marker exactly when the lookup
      signals "no MX" in the sense of `SignalsNoMx`. */
  function CheckMxRecord(domain: string, lookup: MxLookup): (result: string)
    ensures StartsWith(result, MxOpening(domain, lookup))
    ensures !lookup.MxFound? ==> Contains(result, domain)
    ensures lookup.MxFound? ==> Contains(result, lookup.exchange)
    ensures !lookup.MxFound? ==> Contains(result, lookup.reason)
    ensures Contains(result, NoMxMarker) <==> SignalsNoMx(domain, lookup)
  {
    match lookup
    case MxFound(exchange) =>
      CertifyMxFoundOpening();
      InertPrefix("MX record found: ", exchange, NoMxMarker);
      ContainsSuffix("MX record found: ", exchange);
      assert ("MX record found: " + exchange)[..17] == "MX record found: ";
      "MX record found: " + exchange
    case MxMissing(_, reason) =>
      var lead := "No MX record found for domain " + domain + ": ";
      assert lead + reason == NoMxMarker + (" for domain " + domain + ": " + reason);
      ContainsPrefix(NoMxMarker, " for domain " + domain + ": " + reason);
      ContainsSuffix(lead, reason);
      DomainInLead("No MX record found for domain ", domain, reason);
      assert (lead + reason)[..|lead|] == lead;
      lead + reason
    case MxError(reason) =>
      var lead := "An error occurred while checking MX record for domain " + domain + ": ";
      GenericMxErrorMarker(domain, reason);
      ContainsSuffix(lead, reason);
      DomainInLead("An error occurred while checking MX record for domain ", domain, reason);
      assert (lead + reason)[..|lead|] == lead;
      lead + reason
  }

  /** The fixed text an MX message opens with: the two failure openings
      name the domain. */
  function MxOpening(domain: string, lookup: MxLookup): string
  {
    match lookup
    case MxFound(_) => "MX record found: "
    case MxMissing(_, _) => "No MX record found for domain " + domain + ": "
    case MxError(_) => "An error occurred while checking MX record for domain " + domain + ": "
  }

  /** A domain written between a fixed lead and ": {e}" appears in the
      message. */
  lemma DomainInLead(lead: string, domain: string, reason: string)
    ensures Contains(lead + domain + ": " + reason, domain)
  {
    ContainsPrefix(domain, "");
    assert domain + "" == domain;
    ContainsInside(lead, domain, ": " + reason, domain);
    assert lead + domain + (": " + reason) == lead + domain + ": " + reason;
  }

  /** The first character of each MX opening: 'M', 'N' or 'A'. */
  lemma MxOpeningFirst(domain: string, lookup: MxLookup)
    ensures |MxOpening(domain, lookup)| >= 1
    ensures var c := MxOpening(domain, lookup)[0];
            && (lookup.MxFound? <==> c == 'M')
            && (lookup.MxMissing? <==> c == 'N')
            && (lookup.MxError? <==> c == 'A')
  {
    match lookup
    case MxFound(_) =>
    case MxMissing(_, _) =>
      var lead := "No MX record found for domain ";
      assert MxOpening(domain, lookup) == lead + (domain + ": ");
      assert (lead + (domain + ": "))[0] == lead[0];
    case MxError(_) =>
      MxErrorOpeningFirst(domain);
  }

  /** The generic failure opening starts with 'A'; the long literal is
      split in two so the solver can index it. */
  lemma MxErrorOpeningFirst(domain: string)
    ensures var o := "An error occurred while checking MX record for domain " + domain + ": ";
            |o| >= 1 && o[0] == 'A'
  {
    var p1, p2 := "An error occurred while ", "checking MX record for domain ";
    assert p1 + p2 == "An error occurred while checking MX record for domain ";
    assert (p1 + (p2 + domain + ": "))[0] == p1[0];
    assert p1 + (p2 + domain + ": ") == p1 + p2 + domain + ": ";
  }

  /** Equal MX messages come from the same kind of lookup: the openings
      "MX", "No" and "An" already differ in their first character, whatever
      the domains. */
  lemma MxOpeningIdentifiesKind(domain1: string, lookup1: MxLookup, domain2: string, lookup2: MxLookup)
    requires CheckMxRecord(domain1, lookup1) == CheckMxRecord(domain2, lookup2)
    ensures lookup1.MxFound? <==> lookup2.MxFound?
    ensures lookup1.MxMissing? <==> lookup2.MxMissing?
    ensures lookup1.MxError? <==> lookup2.MxError?
  {
    var r := CheckMxRecord(domain1, lookup1);
    var o1, o2 := MxOpening(domain1, lookup1), MxOpening(domain2, lookup2);
    MxOpeningFirst(domain1, lookup1);
    MxOpeningFirst(domain2, lookup2);
    assert r[..|o1|] == o1 && r[..|o2|] == o2;
    assert o1[0] == r[0] == o2[0];
  }

  /** When an MX result carries the no-MX marker, in terms of the lookup:
      always for the three caught exceptions, and otherwise only if text
      that came from outside (the exchange name, the domain, the exception
      text) contains it. */
  predicate SignalsNoMx(domain: string, lookup: MxLookup)
  {
    match lookup
    case MxFound(exchange) => Contains(exchange, NoMxMarker)
    case MxMissing(_, _) => true
    case MxError(reason) => Contains(domain, NoMxMarker) || Contains(reason, NoMxMarker)
  }

  /** The generic failure text has no marker of its own: it carries the
      marker only through the domain or the exception text. */
  lemma GenericMxErrorMarker(domain: string, reason: string)
    ensures Contains("An error occurred while checking MX record for domain " + domain + ": " + reason, NoMxMarker)
        <==> Contains(domain, NoMxMarker) || Contains(reason, NoMxMarker)
  {
    var m := NoMxMarker;
    var lead := "An error occurred while checking MX record for domain ";
    CertifyMxErrorOpening();
    CertifySeparator();
    var tail := ": " + reason;
    assert lead + domain + ": " + reason == lead + (domain + tail);
    InertPrefix(lead, domain + tail, m);
    NoMatchContinuesIntoExtend(": ", reason, m);
    GuardedBoundary(domain, tail, m);
    InertPrefix(": ", reason, m);
  }

  /* The certificates below are checked on the literal text itself; long
     texts are certified in short pieces. */

  lemma CertifyMxFoundOpening()
    ensures NoMatchStartsIn("MX record found: ", NoMxMarker)
  {
  }

  lemma CertifyMxErrorOpening()
    ensures NoMatchStartsIn("An error occurred while checking MX record for domain ", NoMxMarker)
  {
    var m := NoMxMarker;
    var p1, p2, p3 := "An error occurred while ", "checking MX ", "record for domain ";
    assert NoMatchStartsIn(p1, m);
    assert NoMatchStartsIn(p2, m);
    assert NoMatchStartsIn(p3, m);
    NoMatchStartsInConcat(p1, p2, m);
    NoMatchStartsInConcat(p1 + p2, p3, m);
    assert p1 + p2 + p3 == "An error occurred while checking MX record for domain ";
  }

  /** The ": " between an echoed value and an exception text. */
  lemma CertifySeparator()
    ensures NoMatchStartsIn(": ", NoMxMarker) && NoMatchContinuesInto(": ", NoMxMarker)
    ensures NoMatchStartsIn(": ", DeliverableMarker) && NoMatchContinuesInto(": ", DeliverableMarker)
  {
  }

  /* ----------------------------------------------------------------------
     Step 3: deliverability probe
     ---------------------------------------------------------------------- */

  /** How the probe's SMTP dialogue ended: the reply to `RCPT TO` (code and
      the server's text as the f-string renders it), or the exception that
      ended it, classified by the first `except` clause that catches it. */
  datatype ProbeOutcome =
    | RcptReply(code: int, message: string)
    | ConnectError(reason: string)       // smtplib.SMTPConnectError
    | ServerDisconnected(reason: string) // smtplib.SMTPServerDisconnected
    | SmtpError(reason: string)          // any other smtplib.SMTPException
    | OtherError(reason: string)         // anything else: DNS failures, sockets, timeouts

  /** The message `verify_email_deliverability` returns for an outcome. It
      contains "is deliverable" exactly when RCPT got code 250 or when text
      echoed into it carries the marker: no fixed message text supplies the
      marker on its own. */
  function DeliverabilityReport(email: string, outcome: ProbeOutcome): (report: string)
    ensures Contains(report, DeliverableMarker)
        <==> Accepted(outcome) || EchoesDeliverableMarker(email, outcome)
  {
    var m := DeliverableMarker;
    match outcome
    case RcptReply(code, message) =>
      if code == 250 then
        assert m + "" == m;
        ContainsPrefix(m, "");
        ContainsInside("Email " + email + " ", m, ".", m);
        assert "Email " + email + " " + m + "." == "Email " + email + " is deliverable.";
        "Email " + email + " is deliverable."
      else
        var middle := " is not deliverable: ";
        CertifyRcptTexts();
        assert "Email " + email + middle + message == "Email " + (email + (middle + message));
        InertPrefix("Email ", email + (middle + message), m);
        NoMatchContinuesIntoExtend(middle, message, m);
        GuardedBoundary(email, middle + message, m);
        InertPrefix(middle, message, m);
        "Email " + email + middle + message
    case ConnectError(reason) =>
      CertifySmtpOpenings();
      InertPrefix("SMTP connect error: ", reason, m);
      "SMTP connect error: " + reason
    case ServerDisconnected(reason) =>
      CertifySmtpOpenings();
      InertPrefix("SMTP server disconnected: ", reason, m);
      "SMTP server disconnected: " + reason
    case SmtpError(reason) =>
      CertifyCheckingOpenings();
      DeliverabilityLeadInert("SMTP error checking deliverability for ", email, reason);
      "SMTP error checking deliverability for " + email + ": " + reason
    case OtherError(reason) =>
      CertifyCheckingOpenings();
      DeliverabilityLeadInert("Error checking deliverability for ", email, reason);
      "Error checking deliverability for " + email + ": " + reason
  }

  /** `verify_email_deliverability(email)`. The split on '@' happens before
      the `try`, so an address without '@' raises instead of producing a
      message; otherwise the session is run against the domain of `email`
      and asks about `email` itself. */
  function VerifyEmailDeliverability(email: string, session: (string, string) -> ProbeOutcome)
    : (r: Result<string, PyError>)
    ensures r.Failure? <==> '@' !in email
    ensures r.Success? ==>
      r.value == DeliverabilityReport(email, session(DomainOf(email).value, email))
  {
    match DomainOf(email)
    case None => Failure(IndexError)
    case Some(domain) => Success(DeliverabilityReport(email, session(domain, email)))
  }

  /** The server accepted the recipient. */
  predicate Accepted(outcome: ProbeOutcome)
  {
    outcome.RcptReply? && outcome.code == 250
  }

  /** A message other than the acceptance one carries the deliverable
      marker only through text echoed into it: the address (where the
      message names it) or the server's or exception's text. */
  predicate EchoesDeliverableMarker(email: string, outcome: ProbeOutcome)
  {
    match outcome
    case RcptReply(code, message) =>
      code != 250 && (Contains(email, DeliverableMarker) || Contains(message, DeliverableMarker))
    case ConnectError(reason) => Contains(reason, DeliverableMarker)
    case ServerDisconnected(reason) => Contains(reason, DeliverableMarker)
    case SmtpError(reason) => Contains(email, DeliverableMarker) || Contains(reason, DeliverableMarker)
    case OtherError(reason) => Contains(email, DeliverableMarker) || Contains(reason, DeliverableMarker)
  }

  /** A refused recipient is reported as not deliverable, quoting the
      server's reply; the message reads as deliverable only if the address
      or the reply itself contains the marker. */
  lemma RefusedRecipientReport(email: string, code: int, message: string)
    requires code != 250
    ensures var r := DeliverabilityReport(email, RcptReply(code, message));
            && Contains(r, "not deliverable")
            && Contains(r, message)
            && (Contains(r, DeliverableMarker) <==>
                Contains(email, DeliverableMarker) || Contains(message, DeliverableMarker))
  {
    var r := DeliverabilityReport(email, RcptReply(code, message));
    assert r == "Email " + email + " is " + "not deliverable" + (": " + message);
    ContainsPrefix("not deliverable", "");
    assert "not deliverable" + "" == "not deliverable";
    ContainsInside("Email " + email + " is ", "not deliverable", ": " + message, "not deliverable");
    ContainsSuffix("Email " + email + " is not deliverable: ", message);
  }

  /** The two "... checking deliverability for {email}: {e}" messages carry
      the deliverable marker only through the address or the exception. */
  lemma DeliverabilityLeadInert(lead: string, email: string, reason: string)
    requires NoMatchStartsIn(lead, DeliverableMarker)
    ensures Contains(lead + email + ": " + reason, DeliverableMarker)
        <==> Contains(email, DeliverableMarker) || Contains(reason, DeliverableMarker)
  {
    var m := DeliverableMarker;
    CertifySeparator();
    var tail := ": " + reason;
    assert lead + email + ": " + reason == lead + (email + tail);
    InertPrefix(lead, email + tail, m);
    NoMatchContinuesIntoExtend(": ", reason, m);
    GuardedBoundary(email, tail, m);
    InertPrefix(": ", reason, m);
  }

  lemma CertifyRcptTexts()
    ensures NoMatchStartsIn("Email ", DeliverableMarker)
    ensures NoMatchStartsIn(" is not deliverable: ", DeliverableMarker)
    ensures NoMatchContinuesInto(" is not deliverable: ", DeliverableMarker)
  {
  }

  lemma CertifySmtpOpenings()
    ensures NoMatchStartsIn("SMTP connect error: ", DeliverableMarker)
    ensures NoMatchStartsIn("SMTP server disconnected: ", DeliverableMarker)
  {
  }

  lemma CertifyCheckingOpenings()
    ensures NoMatchStartsIn("SMTP error checking deliverability for ", DeliverableMarker)
    ensures NoMatchStartsIn("Error checking deliverability for ", DeliverableMarker)
  {
    var m := DeliverableMarker;
    var p1, p2, p3, p4 := "SMTP error checking ", "Error checking ", "deliverab", "ility for ";
    assert NoMatchStartsIn(p1, m);
    assert NoMatchStartsIn(p2, m);
    assert NoMatchStartsIn(p3, m);
    assert NoMatchStartsIn(p4, m);
    NoMatchStartsInConcat(p3, p4, m);
    NoMatchStartsInConcat(p1, p3 + p4, m);
    NoMatchStartsInConcat(p2, p3 + p4, m);
    assert p1 + (p3 + p4) == "SMTP error checking deliverability for ";
    assert p2 + (p3 + p4) == "Error checking deliverability for ";
  }

  /** The kind of ending a deliverability message reports; each has its own
      fixed opening. */
  datatype ReportKind = RcptAnswer | ConnectFailure | Disconnection | SmtpFailure | OtherFailure

  function KindOf(outcome: ProbeOutcome): ReportKind
  {
    match outcome
    case RcptReply(_, _) => RcptAnswer
    case ConnectError(_) => ConnectFailure
    case ServerDisconnected(_) => Disconnection
    case SmtpError(_) => SmtpFailure
    case OtherError(_) => OtherFailure
  }

  /** The fixed text each kind of message opens with. */
  function Opening(kind: ReportKind): string
  {
    match kind
    case RcptAnswer => "Email "
    case ConnectFailure => "SMTP connect error: "
    case Disconnection => "SMTP server disconnected: "
    case SmtpFailure => "SMTP error checking deliverability for "
    case OtherFailure => "Error checking deliverability for "
  }

  /** Distinct openings already differ in their first, second or sixth
      character. */
  lemma OpeningsDifferEarly(k1: ReportKind, k2: ReportKind)
    requires k1 != k2
    ensures |Opening(k1)| >= 6 && |Opening(k2)| >= 6
    ensures Opening(k1)[0] != Opening(k2)[0]
         || Opening(k1)[1] != Opening(k2)[1]
         || Opening(k1)[5] != Opening(k2)[5]
  {
  }

  /** A message opens with the text of its own kind and with no other, so
      the kind of ending can be read back from the message. */
  lemma ReportOpeningIdentifiesKind(email: string, outcome: ProbeOutcome)
    ensures StartsWith(DeliverabilityReport(email, outcome), Opening(KindOf(outcome)))
    ensures forall kind :: StartsWith(DeliverabilityReport(email, outcome), Opening(kind))
                           ==> kind == KindOf(outcome)
  {
    var r := DeliverabilityReport(email, outcome);
    var own := Opening(KindOf(outcome));
    assert r == own + r[|own|..];
    assert r[..|own|] == own;
    forall kind | kind != KindOf(outcome) ensures !StartsWith(r, Opening(kind)) {
      OpeningsDifferEarly(kind, KindOf(outcome));
      var o := Opening(kind);
      assert r[0] == own[0] && r[1] == own[1] && r[5] == own[5];
      if |o| <= |r| {
        var w := r[..|o|];
        assert w[0] == r[0] && w[1] == r[1] && w[5] == r[5];
      }
    }
  }

  /** Equal messages report the same kind of ending. */
  lemma SameReportSameKind(email1: string, outcome1: ProbeOutcome, email2: string, outcome2: ProbeOutcome)
    requires DeliverabilityReport(email1, outcome1) == DeliverabilityReport(email2, outcome2)
    ensures KindOf(outcome1) == KindOf(outcome2)
  {
    ReportOpeningIdentifiesKind(email1, outcome1);
    ReportOpeningIdentifiesKind(email2, outcome2);
  }
}

=== FILE: pipeline.dfy ===
/** `validate_email_address`: one address through the three checks, with
    the outcome appended as one row to one of two result lists. Each step's
    outcome is read back by a substring test on the message the step
    returned; that quirk is kept, not repaired. */
module Pipeline {
  import opened Wrappers
  import opened Strings
  import opened Messages

  /** `[email, syntax_result, mx_result, deliverability_result]`; a field is
      `None` when its step did not run. */
  datatype Row = Row(
    email: string,
    syntaxResult: string,
    mxResult: Option<string>,
    deliverabilityResult: Option<string>)

  /** `deliverable_results` and `non_deliverable_results`. */
  datatype Lists = Lists(deliverable: seq<Row>, nonDeliverable: seq<Row>)

  /** What the outside world answers: the syntax library for an address, the
      resolver for a domain, and the SMTP session for a domain and the
      recipient address it is asked about. */
  datatype Checks = Checks(
    syntax: string -> SyntaxVerdict,
    mx: string -> MxLookup,
    session: (string, string) -> ProbeOutcome)

  /** A check the routing invoked, with the argument it was given. */
  datatype Call =
    | SyntaxCheck(address: string)    // validate_email_syntax(email)
    | MxCheck(domain: string)         // check_mx_record(domain)
    | DeliverabilityCheck(address: string) // verify_email_deliverability(email)

  /** One call either appends `row`, giving the new lists, or raises; the
      checks it invoked are listed in order either way. */
  datatype Outcome =
    | Appended(calls: seq<Call>, row: Row, lists: Lists)
    | Raised(calls: seq<Call>, error: PyError)

  /** The lists grow by exactly one row, at the end of exactly one of them;
      every row already present stays where it was. */
  predicate AddsOneRow(before: Lists, row: Row, after: Lists)
  {
    || (after.deliverable == before.deliverable + [row] && after.nonDeliverable == before.nonDeliverable)
    || (after.nonDeliverable == before.nonDeliverable + [row] && after.deliverable == before.deliverable)
  }

  /** The test that sends a row to the deliverable list. */
  predicate MarkedDeliverable(row: Row)
  {
    row.deliverabilityResult.Some? && Contains(row.deliverabilityResult.value, DeliverableMarker)
  }

  /** The record invariant: the MX field is empty exactly when the syntax
      result reads as a rejection, and the deliverability field is present
      exactly when the MX step ran and did not read as "no MX". */
  predicate WellFormed(row: Row)
  {
    && (row.mxResult.None? <==> Contains(row.syntaxResult, InvalidSyntaxMarker))
    && (row.deliverabilityResult.Some? <==>
          row.mxResult.Some? && !Contains(row.mxResult.value, NoMxMarker))
  }

  /** Every row is well formed and sits in the list its own fields select. */
  predicate RowsInTheirLists(lists: Lists)
  {
    && (forall row | row in lists.deliverable :: WellFormed(row) && MarkedDeliverable(row))
    && (forall row | row in lists.nonDeliverable :: WellFormed(row) && !MarkedDeliverable(row))
  }

  /** The checks a row records as having run, in order: the syntax check on
      the address as given, the MX check on its domain when the row has an
      MX field, and the probe on the address as given when the row has a
      deliverability field. */
  function CallsRecorded(email: string, row: Row): seq<Call>
    requires row.mxResult.Some? ==> '@' in email
  {
    [SyntaxCheck(email)]
    + (if row.mxResult.Some? then [MxCheck(DomainOf(email).value)] else [])
    + (if row.deliverabilityResult.Some? then [DeliverabilityCheck(email)] else [])
  }

  /** `validate_email_address(email, deliverable_results, non_deliverable_results)`. */
  function ValidateEmailAddress(email: string, checks: Checks, lists: Lists): (r: Outcome)
    ensures r.Raised? <==>
      !Contains(ValidateEmailSyntax(checks.syntax(email)), InvalidSyntaxMarker) && '@' !in email
    ensures r.Raised? ==> r.calls == [SyntaxCheck(email)]
    ensures r.Appended? ==> AddsOneRow(lists, r.row, r.lists)
    ensures r.Appended? ==>
      && r.row.email == email
      && r.row.syntaxResult == ValidateEmailSyntax(checks.syntax(email))
      && WellFormed(r.row)
    ensures r.Appended? && r.row.mxResult.Some? ==>
      && '@' in email
      && r.row.mxResult == Some(CheckMxRecord(DomainOf(email).value, checks.mx(DomainOf(email).value)))
    ensures r.Appended? && r.row.deliverabilityResult.Some? ==>
      r.row.deliverabilityResult
        == Some(DeliverabilityReport(email, checks.session(DomainOf(email).value, email)))
    ensures r.Appended? ==> r.calls == CallsRecorded(email, r.row)
    ensures r.Appended? ==>
      (r.lists.deliverable == lists.deliverable + [r.row] <==> MarkedDeliverable(r.row))
  {
    var syntaxResult := ValidateEmailSyntax(checks.syntax(email));
    if Contains(syntaxResult, InvalidSyntaxMarker) then
      var row := Row(email, syntaxResult, None, None);
      Appended([SyntaxCheck(email)], row, lists.(nonDeliverable := lists.nonDeliverable + [row]))
    else
      match DomainOf(email)
      case None => Raised([SyntaxCheck(email)], IndexError)
      case Some(domain) =>
        var mxResult := CheckMxRecord(domain, checks.mx(domain));
        if Contains(mxResult, NoMxMarker) then
          var row := Row(email, syntaxResult, Some(mxResult), None);
          Appended([SyntaxCheck(email), MxCheck(domain)], row,
                   lists.(nonDeliverable := lists.nonDeliverable + [row]))
        else
          var report := VerifyEmailDeliverability(email, checks.session).value;
          var row := Row(email, syntaxResult, Some(mxResult), Some(report));
          var calls := [SyntaxCheck(email), MxCheck(domain), DeliverabilityCheck(email)];
          if Contains(report, DeliverableMarker) then
            Appended(calls, row, lists.(deliverable := lists.deliverable + [row]))
          else
            Appended(calls, row, lists.(nonDeliverable := lists.nonDeliverable + [row]))
  }

  /** Rows stay in their lists: routing only ever appends a row to the list
      its own fields select. */
  lemma RoutingKeepsRowsInTheirLists(email: string, checks: Checks, lists: Lists)
    requires RowsInTheirLists(lists)
    requires ValidateEmailAddress(email, checks, lists).Appended?
    ensures RowsInTheirLists(ValidateEmailAddress(email, checks, lists).lists)
  {
  }

  /* ----------------------------------------------------------------------
     Short circuits
     ---------------------------------------------------------------------- */

  /** A syntax result that reads as a rejection ends the pipeline: the row
      has no MX or deliverability field, goes to the non-deliverable list,
      and neither later check is invoked. */
  lemma InvalidSyntaxShortCircuits(email: string, checks: Checks, lists: Lists)
    requires Contains(ValidateEmailSyntax(checks.syntax(email)), InvalidSyntaxMarker)
    ensures var r := ValidateEmailAddress(email, checks, lists);
            var row := Row(email, ValidateEmailSyntax(checks.syntax(email)), None, None);
            && r == Appended([SyntaxCheck(email)], row, r.lists)
            && r.lists.nonDeliverable == lists.nonDeliverable + [row]
            && r.lists.deliverable == lists.deliverable
  {
  }

  /** The same, stated without the call list: once the syntax result reads
      as a rejection, the answers of the resolver and of the SMTP session
      cannot affect the outcome. */
  lemma InvalidSyntaxIgnoresLaterChecks(email: string, checks1: Checks, checks2: Checks, lists: Lists)
    requires checks1.syntax(email) == checks2.syntax(email)
    requires Contains(ValidateEmailSyntax(checks1.syntax(email)), InvalidSyntaxMarker)
    ensures ValidateEmailAddress(email, checks1, lists) == ValidateEmailAddress(email, checks2, lists)
  {
  }

  /** An MX result that reads as "no MX" ends the pipeline before the probe:
      the row keeps the MX message, has no deliverability field and goes to
      the non-deliverable list. */
  lemma NoMxShortCircuits(email: string, checks: Checks, lists: Lists)
    requires !Contains(ValidateEmailSyntax(checks.syntax(email)), InvalidSyntaxMarker)
    requires '@' in email
    requires var domain := DomainOf(email).value;
             Contains(CheckMxRecord(domain, checks.mx(domain)), NoMxMarker)
    ensures var domain := DomainOf(email).value;
            var r := ValidateEmailAddress(email, checks, lists);
            var row := Row(email, ValidateEmailSyntax(checks.syntax(email)),
                           Some(CheckMxRecord(domain, checks.mx(domain))), None);
            && r == Appended([SyntaxCheck(email), MxCheck(domain)], row, r.lists)
            && r.lists.nonDeliverable == lists.nonDeliverable + [row]
            && r.lists.deliverable == lists.deliverable
  {
  }

  /** Once the MX result reads as "no MX", the SMTP session's answer cannot
      affect the outcome. */
  lemma NoMxIgnoresProbe(email: string, checks1: Checks, checks2: Checks, lists: Lists)
    requires checks1.syntax(email) == checks2.syntax(email)
    requires '@' in email
    requires var domain := DomainOf(email).value;
             && checks1.mx(domain) == checks2.mx(domain)
             && Contains(CheckMxRecord(domain, checks1.mx(domain)), NoMxMarker)
    ensures ValidateEmailAddress(email, checks1, lists) == ValidateEmailAddress(email, checks2, lists)
  {
  }

  /** A generic resolver failure does not stop the pipeline unless the
      domain or the exception text happens to contain the "no MX" marker:
      the probe still runs and its message is recorded. */
  lemma GenericMxFailureReachesProbe(email: string, checks: Checks, lists: Lists)
    requires !Contains(ValidateEmailSyntax(checks.syntax(email)), InvalidSyntaxMarker)
    requires '@' in email
    requires var domain := DomainOf(email).value;
             && checks.mx(domain).MxError?
             && !Contains(domain, NoMxMarker)
             && !Contains(checks.mx(domain).reason, NoMxMarker)
    ensures var r := ValidateEmailAddress(email, checks, lists);
            && r.Appended?
            && r.calls == [SyntaxCheck(email), MxCheck(DomainOf(email).value), DeliverabilityCheck(email)]
            && r.row.deliverabilityResult.Some?
  {
  }

  /** The converse quirk: a generic resolver failure whose domain or
      exception text contains the marker is treated as "no MX". */
  lemma MarkerInMxErrorTextStopsProbe(email: string, checks: Checks, lists: Lists)
    requires !Contains(ValidateEmailSyntax(checks.syntax(email)), InvalidSyntaxMarker)
    requires '@' in email
    requires var domain := DomainOf(email).value;
             && checks.mx(domain).MxError?
             && (Contains(domain, NoMxMarker) || Contains(checks.mx(domain).reason, NoMxMarker))
    ensures var r := ValidateEmailAddress(email, checks, lists);
            && r.Appended?
            && r.calls == [SyntaxCheck(email), MxCheck(DomainOf(email).value)]
            && r.row.deliverabilityResult.None?
  {
  }

  /* ----------------------------------------------------------------------
     The probe
     ---------------------------------------------------------------------- */

  /** Once the syntax result passes, the address has an '@' and the MX result
      does not read as "no MX", all three checks run. The probe is run with
      the address as given, not the normalised syntax result: it is invoked
      with `email`, the session is asked about `email` at the domain of
      `email`, and both messages are recorded in the row, which goes to the
      deliverable list exactly when the probe message reads as deliverable. */
  lemma ProbeUsesOriginalAddress(email: string, checks: Checks, lists: Lists)
    requires !Contains(ValidateEmailSyntax(checks.syntax(email)), InvalidSyntaxMarker)
    requires '@' in email
    requires var domain := DomainOf(email).value;
             !Contains(CheckMxRecord(domain, checks.mx(domain)), NoMxMarker)
    ensures var r := ValidateEmailAddress(email, checks, lists);
            var domain := DomainOf(email).value;
            var report := DeliverabilityReport(email, checks.session(domain, email));
            var row := Row(email, ValidateEmailSyntax(checks.syntax(email)),
                           Some(CheckMxRecord(domain, checks.mx(domain))), Some(report));
            && r.Appended?
            && r.calls == [SyntaxCheck(email), MxCheck(domain), DeliverabilityCheck(email)]
            && r.row == row
            && (Contains(report, DeliverableMarker) ==>
                  r.lists == lists.(deliverable := lists.deliverable + [row]))
            && (!Contains(report, DeliverableMarker) ==>
                  r.lists == lists.(nonDeliverable := lists.nonDeliverable + [row]))
  {
  }

  /** A recipient accepted with code 250 makes the address deliverable, once
      the first two steps let the probe run. */
  lemma AcceptedRecipientIsDeliverable(email: string, checks: Checks, lists: Lists)
    requires !Contains(ValidateEmailSyntax(checks.syntax(email)), InvalidSyntaxMarker)
    requires '@' in email
    requires var domain := DomainOf(email).value;
             && !Contains(CheckMxRecord(domain, checks.mx(domain)), NoMxMarker)
             && Accepted(checks.session(domain, email))
    ensures var r := ValidateEmailAddress(email, checks, lists);
            && r.Appended?
            && r.row.deliverabilityResult == Some("Email " + email + " is deliverable.")
            && r.lists.deliverable == lists.deliverable + [r.row]
            && r.lists.nonDeliverable == lists.nonDeliverable
  {
  }

  /* ----------------------------------------------------------------------
     The routing as a state machine over the typed check outcomes
     ---------------------------------------------------------------------- */

  /** Where one address ends up. A failed probe is a `NotDeliverable` end,
      since the routing only asks whether the message reads as deliverable. */
  datatype Terminal = InvalidSyntax | NoMx | Deliverable | NotDeliverable | IndexErrorRaised

  /** The end an outcome records: raised, or read off which list received
      the row and which of its fields are present. */
  function TerminalOf(before: Lists, r: Outcome): Terminal
  {
    match r
    case Raised(_, _) => IndexErrorRaised
    case Appended(_, row, after) =>
      if row.mxResult.None? then InvalidSyntax
      else if row.deliverabilityResult.None? then NoMx
      else if after.deliverable == before.deliverable + [row] then Deliverable
      else NotDeliverable
  }

  /** The end the checks' answers call for, stated over the typed answers
      rather than the messages: each step stops the pipeline when it
      genuinely fails, and also, because routing searches the messages for
      fixed markers, when text echoed from outside carries that marker. */
  function ExpectedTerminal(email: string, checks: Checks): Terminal
  {
    var verdict := checks.syntax(email);
    if verdict.NotValid? || Contains(verdict.address, InvalidSyntaxMarker) then InvalidSyntax
    else if '@' !in email then IndexErrorRaised
    else
      var domain := DomainOf(email).value;
      if SignalsNoMx(domain, checks.mx(domain)) then NoMx
      else
        var outcome := checks.session(domain, email);
        if Accepted(outcome) || EchoesDeliverableMarker(email, outcome) then Deliverable
        else NotDeliverable
  }

  /** The substring-driven routing reaches exactly the end that the typed
      answers call for. */
  lemma RoutingFollowsCheckOutcomes(email: string, checks: Checks, lists: Lists)
    ensures TerminalOf(lists, ValidateEmailAddress(email, checks, lists)) == ExpectedTerminal(email, checks)
  {
  }
}

=== FILE: strings.dfy ===
/** The two pieces of Python string behaviour the validator relies on: the
    substring test `sub in s`, and `s.split(sep)` with a one-character
    separator. Both are given as executable definitions together with an
    independent characterisation and the lemmas that connect the two. */
module Strings {

  /* ----------------------------------------------------------------------
     Substring test
     ---------------------------------------------------------------------- */

  /** Python's `sub in s` on strings: `sub` occurs as a contiguous run of
      `s`. The empty string occurs in every string. */
  predicate Contains(s: string, sub: string)
    decreases |s|
  {
    if |s| < |sub| then false
    else s[..|sub|] == sub || Contains(s[1..], sub)
  }

  /** `sub` occurs in `s` starting at index `i`. */
  predicate OccursAt(s: string, sub: string, i: int)
  {
    0 <= i && i + |sub| <= |s| && s[i..i + |sub|] == sub
  }

  /** The scan in `Contains` finds an occurrence exactly when one exists. */
  lemma {:induction false} ContainsIffOccurs(s: string, sub: string)
    ensures Contains(s, sub) <==> exists i :: OccursAt(s, sub, i)
    decreases |s|
  {
    if |s| < |sub| {
      forall i ensures !OccursAt(s, sub, i) { }
    } else if |s| == 0 {
      assert OccursAt(s, sub, 0);
    } else {
      var t := s[1..];
      ContainsIffOccurs(t, sub);
      forall i | 1 <= i && i + |sub| <= |s|
        ensures OccursAt(s, sub, i) <==> OccursAt(t, sub, i - 1)
      {
        assert s[i..i + |sub|] == t[i - 1..i - 1 + |sub|] by {
          forall k | i <= k < i + |sub| ensures s[k] == t[k - 1] { }
        }
      }
      if s[..|sub|] == sub {
        assert OccursAt(s, sub, 0);
      } else if Contains(t, sub) {
        var j :| OccursAt(t, sub, j);
        assert OccursAt(s, sub, j + 1);
      } else {
        forall i ensures !OccursAt(s, sub, i) {
          if i == 0 {
            assert s[0..|sub|] == s[..|sub|];
          } else if 1 <= i && i + |sub| <= |s| {
            assert !OccursAt(t, sub, i - 1);
          }
        }
      }
    }
  }

  /** `s` opens with `p`: the predicate the message contracts use to state
      each message's fixed opening. */
  predicate StartsWith(s: string, p: string)
  {
    |p| <= |s| && s[..|p|] == p
  }

  /** Any occurrence makes the substring test succeed. */
  lemma ContainsFromOccurrence(s: string, sub: string, i: int)
    requires OccursAt(s, sub, i)
    ensures Contains(s, sub)
  {
    ContainsIffOccurs(s, sub);
  }

  /** A string that starts with `sub` contains it. */
  lemma ContainsPrefix(sub: string, rest: string)
    ensures Contains(sub + rest, sub)
  {
  }

  /** Whatever `b` contains, `a + b + c` contains too. */
  lemma ContainsInside(a: string, b: string, c: string, sub: string)
    requires Contains(b, sub)
    ensures Contains(a + b + c, sub)
  {
    ContainsIffOccurs(b, sub);
    var j :| OccursAt(b, sub, j);
    var s := a + b + c;
    assert s[|a| + j..|a| + j + |sub|] == b[j..j + |sub|];
    ContainsFromOccurrence(s, sub, |a| + j);
  }

  /** A string that ends with `sub` contains it. */
  lemma ContainsSuffix(a: string, sub: string)
    ensures Contains(a + sub, sub)
  {
    ContainsPrefix(sub, "");
    assert sub + "" == sub;
    ContainsInside(a, sub, "", sub);
    assert a + sub + "" == a + sub;
  }

  /* ----------------------------------------------------------------------
     Certificates that fixed text cannot take part in an occurrence
     ---------------------------------------------------------------------- */

  /** No occurrence of `m` can begin anywhere inside `a`, whatever follows
      `a`: every start position disagrees with one of the first four
      characters of `m` while still inside `a`. */
  predicate NoMatchStartsIn(a: string, m: string)
  {
    |m| >= 4 && forall i | 0 <= i < |a| :: MismatchWithin(a, m, i)
  }

  /** Some of the first four characters of `m` disagrees with `a` at an
      index still inside `a`, counting from position `i`. */
  predicate MismatchWithin(a: string, m: string, i: int)
    requires 0 <= i < |a| && |m| >= 4
  {
    a[i] != m[0]
    || (i + 1 < |a| && a[i + 1] != m[1])
    || (i + 2 < |a| && a[i + 2] != m[2])
    || (i + 3 < |a| && a[i + 3] != m[3])
  }

  /** No occurrence of `m` that began before `b` can run on into `b`: the
      first two characters of `b` never continue a proper prefix of `m`. */
  predicate NoMatchContinuesInto(b: string, m: string)
  {
    |b| >= 2 &&
    forall k | 1 <= k < |m| :: b[0] != m[k] || (k + 1 < |m| && b[1] != m[k + 1])
  }

  /** Whatever follows the first two characters does not matter. */
  lemma NoMatchContinuesIntoExtend(b: string, c: string, m: string)
    requires NoMatchContinuesInto(b, m)
    ensures NoMatchContinuesInto(b + c, m)
  {
  }

  /** The certificate is kept by concatenation, so long fixed texts can be
      certified piece by piece. */
  lemma NoMatchStartsInConcat(a: string, b: string, m: string)
    requires NoMatchStartsIn(a, m) && NoMatchStartsIn(b, m)
    ensures NoMatchStartsIn(a + b, m)
  {
    var s := a + b;
    forall i | 0 <= i < |s| ensures MismatchWithin(s, m, i) {
      if i < |a| {
        assert MismatchWithin(a, m, i);
      } else {
        assert MismatchWithin(b, m, i - |a|);
      }
    }
  }

  /** A certified prefix is inert: `a + b` contains `m` exactly when `b`
      does. */
  lemma InertPrefix(a: string, b: string, m: string)
    requires NoMatchStartsIn(a, m)
    ensures Contains(a + b, m) <==> Contains(b, m)
  {
    var s := a + b;
    ContainsIffOccurs(s, m);
    ContainsIffOccurs(b, m);
    forall i | 0 <= i < |a| ensures !OccursAt(s, m, i) {
      assert MismatchWithin(a, m, i);
      if i + |m| <= |s| {
        var w := s[i..i + |m|];
        assert w[0] == a[i];
        assert i + 1 < |a| ==> w[1] == a[i + 1];
        assert i + 2 < |a| ==> w[2] == a[i + 2];
        assert i + 3 < |a| ==> w[3] == a[i + 3];
      }
    }
    forall j | 0 <= j
      ensures OccursAt(s, m, |a| + j) <==> OccursAt(b, m, j)
    {
      if j + |m| <= |b| {
        assert s[|a| + j..|a| + j + |m|] == b[j..j + |m|];
      }
    }
    if Contains(b, m) {
      var j :| OccursAt(b, m, j);
      assert OccursAt(s, m, |a| + j);
    }
    if Contains(s, m) {
      var i :| OccursAt(s, m, i);
      assert OccursAt(b, m, i - |a|);
    }
  }

  /** Across a guarded boundary an occurrence lies wholly on one side. */
  lemma GuardedBoundary(a: string, b: string, m: string)
    requires NoMatchContinuesInto(b, m)
    ensures Contains(a + b, m) <==> Contains(a, m) || Contains(b, m)
  {
    var s := a + b;
    ContainsIffOccurs(s, m);
    ContainsIffOccurs(a, m);
    ContainsIffOccurs(b, m);
    forall i | 0 <= i && i + |m| <= |a|
      ensures OccursAt(s, m, i) <==> OccursAt(a, m, i)
    {
      assert s[i..i + |m|] == a[i..i + |m|];
    }
    forall j | 0 <= j
      ensures OccursAt(s, m, |a| + j) <==> OccursAt(b, m, j)
    {
      if j + |m| <= |b| {
        assert s[|a| + j..|a| + j + |m|] == b[j..j + |m|];
      }
    }
    // an occurrence running from `a` on into `b` is ruled out
    forall i | 0 <= i < |a| < i + |m| ensures !OccursAt(s, m, i) {
      var k := |a| - i;
      assert b[0] != m[k] || (k + 1 < |m| && b[1] != m[k + 1]);
      if i + |m| <= |s| {
        var w := s[i..i + |m|];
        assert w[k] == b[0];
        assert k + 1 < |m| ==> w[k + 1] == b[1];
      }
    }
    if Contains(a, m) {
      var j :| OccursAt(a, m, j);
      assert OccursAt(s, m, j);
    }
    if Contains(b, m) {
      var j :| OccursAt(b, m, j);
      assert OccursAt(s, m, |a| + j);
    }
    if Contains(s, m) {
      var i :| OccursAt(s, m, i);
      if i + |m| <= |a| {
        assert OccursAt(a, m, i);
      } else {
        assert OccursAt(b, m, i - |a|);
      }
    }
  }

  /* ----------------------------------------------------------------------
     str.split with a one-character separator
     ---------------------------------------------------------------------- */

  /** Python's `s.split(sep)` for a one-character `sep`: the maximal runs
      between separators, including empty ones, so there is always one
      more field than there are separators. */
  function Split(s: string, sep: char): (fields: seq<string>)
    ensures |fields| >= 1
    decreases |s|
  {
    if |s| == 0 then [""]
    else
      var rest := Split(s[1..], sep);
      if s[0] == sep then [""] + rest
      else [[s[0]] + rest[0]] + rest[1..]
  }

  /** `sep.join(fields)`. */
  function Join(fields: seq<string>, sep: char): string
    requires |fields| >= 1
    decreases |fields|
  {
    if |fields| == 1 then fields[0]
    else fields[0] + [sep] + Join(fields[1..], sep)
  }

  /** Joining the fields back with the separator restores the string. */
  lemma {:induction false} JoinSplit(s: string, sep: char)
    ensures Join(Split(s, sep), sep) == s
    decreases |s|
  {
    if |s| > 0 {
      var rest := Split(s[1..], sep);
      JoinSplit(s[1..], sep);
      if s[0] == sep {
        assert Split(s, sep) == [""] + rest;
        assert (([""] + rest)[1..]) == rest;
      } else {
        var fields := [[s[0]] + rest[0]] + rest[1..];
        assert Split(s, sep) == fields;
        if |rest| == 1 {
          assert Join(fields, sep) == [s[0]] + rest[0];
        } else {
          assert fields[1..] == rest[1..];
          assert Join(fields, sep) == [s[0]] + rest[0] + [sep] + Join(rest[1..], sep);
          assert Join(rest, sep) == rest[0] + [sep] + Join(rest[1..], sep);
        }
      }
    }
  }

  /** No field contains the separator. */
  lemma {:induction false} SplitFieldsFree(s: string, sep: char)
    ensures forall k | 0 <= k < |Split(s, sep)| :: sep !in Split(s, sep)[k]
    decreases |s|
  {
    if |s| > 0 {
      SplitFieldsFree(s[1..], sep);
    }
  }

  /** There is a second field exactly when the separator occurs. */
  lemma {:induction false} SplitHasSecondField(s: string, sep: char)
    ensures |Split(s, sep)| >= 2 <==> sep in s
    decreases |s|
  {
    if |s| > 0 {
      SplitHasSecondField(s[1..], sep);
      assert sep in s <==> s[0] == sep || sep in s[1..];
    }
  }

  /** Splitting joined separator-free fields gives the fields back. */
  lemma {:induction false} SplitJoin(fields: seq<string>, sep: char)
    requires |fields| >= 1
    requires forall k | 0 <= k < |fields| :: sep !in fields[k]
    ensures Split(Join(fields, sep), sep) == fields
    decreases |fields|, |fields[0]|
  {
    var f := fields[0];
    if |f| > 0 {
      var shorter := [f[1..]] + fields[1..];
      assert sep !in f[1..] by {
        forall c | c in f[1..] ensures c != sep { assert c in f; }
      }
      SplitJoin(shorter, sep);
      JoinFirstChar(fields, sep);
      assert f[0] != sep by { assert f[0] in f; }
      SplitFirstChar(f[0], Join(shorter, sep), sep);
      assert shorter[0] == f[1..] && shorter[1..] == fields[1..];
      assert [f[0]] + f[1..] == f;
      assert [f] + fields[1..] == fields;
    } else if |fields| > 1 {
      SplitJoin(fields[1..], sep);
      assert Join(fields, sep) == [sep] + Join(fields[1..], sep);
      SplitFirstChar(sep, Join(fields[1..], sep), sep);
      assert [""] + fields[1..] == fields;
    }
  }

  /** Joining peels off the first character of a non-empty first field. */
  lemma JoinFirstChar(fields: seq<string>, sep: char)
    requires |fields| >= 1 && |fields[0]| > 0
    ensures Join(fields, sep) == [fields[0][0]] + Join([fields[0][1..]] + fields[1..], sep)
  {
  }

  /** One step of `Split`, for a string written as its first character and
      the rest. */
  lemma SplitFirstChar(c: char, rest: string, sep: char)
    ensures var fields := Split(rest, sep);
            Split([c] + rest, sep)
              == if c == sep then [""] + fields else [[c] + fields[0]] + fields[1..]
  {
  }
}

=== FILE: wrappers.dfy ===
/** Failure-carrying values used across the model: an optional value (Python's
    `None` or a value) and a result that is either a value or a raised error. */
module Wrappers {

  /** A value that may be absent; `None` plays the part of Python's `None`. */
  datatype Option<+T> = None | Some(value: T)

  /** Either a returned value or the error that was raised instead. */
  datatype Result<+T, +E> = Success(value: T) | Failure(error: E)
}
